=== FILE: README.md ===
# GenSlip receipt model

A Dafny model of the logic inside GenSlip, a browser receipt generator. Users
build a receipt, pick or design a template, and keep their receipts on a
dashboard. The model covers five parts, each as immutable datatypes and pure
functions:

- **Line items** (`LineItems`). Items are edited, appended and removed by id.
  The subtotal is the sum of quantity × price.
- **The receipt editor** (`Receipts`). This part has the initial receipt, the
  top-level field handler and the logo handler. It also has the derived
  totals: tax, levy, grand total, and the manual override. The editor exists
  twice in the source, in `ReceiptEditor.jsx` and in `TemplatePage.jsx`. The
  two differ in layout and props. Their receipt logic differs in one place,
  the discount, so both grand totals are modelled.
- **The template page** (`Templates`, `Numerals`). This covers the five
  built-in templates, the dotted-path setter used by the designer, and saving
  a design. It also covers the `"<n>px"`/`parseInt` radius round trip and the
  camel-case label spacing.
- **The dashboard** (`Dashboard`). This covers the card total, delete, the
  modals, the dashboard/view/edit mode switch and the no-user fetch branch. It
  also covers which branch `formatTimestamp` takes.
- **The shell and sign-up** (`Routing`, `SignUp`). Routing is path-based page
  selection with a sign-in guard and a loading gate. Sign-up covers the
  password check, the error-code mapping and the rotating quote.

Conventions used throughout:

- Money is an exact `real`. JavaScript numbers are `Num = Finite(real) | NaN`.
- A numeric input holds `Entry = Blank | Amount(real)`.
- `parseFloat('')` is NaN. `x || 0` and JavaScript's implicit `ToNumber` both
  turn `''` into 0.
- Calls into the identity provider and the document store are replaced by
  their outcome, which the caller passes in. So are `Date.now()` readings and
  the data URL produced by the file reader.
- Templates are trees of text leaves and keyed objects. Values are immutable,
  so the deep copy the setter takes is the identity. An earlier template can
  never be altered.

In a few places the code behaves differently from what a reader might
expect, and the model follows the code:

- Removing an item drops every row with that id, not just the first.
- The field handler stores whatever name the input carries. The model types
  the edits, one per bound input, so only the nine bound names occur.
- A blank tax or levy rate makes the total NaN in both editors. It is not
  coerced to 0.
- A blank discount is NaN in the standalone editor (see Findings).

## Model

| member | source | states |
|---|---|---|
| `Base.ParseFloat` | src/Components/ReceiptEditor.jsx:608 | `parseFloat` of a numeric input is NaN exactly when the input is blank |
| `Base.ParseFloatOrZero` | src/Components/ReceiptEditor.jsx:691 | the `parseFloat(x) \|\| 0` coercion gives 0 for a blank input and the typed number otherwise |
| `Base.OrZero` | src/Components/TemplatePage.jsx:1137 | `discount \|\| 0` always yields a number: 0 for a blank discount, the discount otherwise |
| `Base.ToNumber` | src/Components/DashboardPage.jsx:418 | JavaScript arithmetic on a stored value treats a blank as 0 and a filled input as its number |
| `Sequences.Filter` | src/Components/ReceiptEditor.jsx:573 | `filter` keeps exactly the elements that pass, in their original relative order, and keeps the whole list when all pass |
| `Sequences.FilterCounts` | src/Components/ReceiptEditor.jsx:573 | `filter` keeps each passing value as many times as it occurs, and no other value |
| `LineItems.ApplyEdit` | src/Components/ReceiptEditor.jsx:557 | the item spread keeps the id and changes only the named field |
| `LineItems.QuantityInput` | src/Components/ReceiptEditor.jsx:691 | a blank quantity input stores 0; otherwise the typed number |
| `LineItems.PriceInput` | src/Components/ReceiptEditor.jsx:698 | a blank price input stores 0; otherwise the typed number |
| `LineItems.UpdateItem` | src/Components/ReceiptEditor.jsx:553-560 | exactly the rows whose id matches are edited; every other row, the length and the order are unchanged |
| `LineItems.UpdateItemKeepsIds` | src/Components/ReceiptEditor.jsx:553-560 | editing keeps the set of ids, and an edit for an absent id leaves the list identical |
| `LineItems.AddItem` | src/Components/ReceiptEditor.jsx:562-570 | exactly one row is appended: the caller's id, name '', quantity 1, price 0; the prefix is untouched |
| `LineItems.RemoveItem` | src/Components/ReceiptEditor.jsx:572-574 | keeps exactly the rows whose id differs, in order; the id set loses only that id; an absent id leaves the list identical |
| `LineItems.RemoveItemCounts` | src/Components/ReceiptEditor.jsx:572-574 | removal keeps every row whose id differs as many times as it occurs, and no row with that id |
| `LineItems.RemoveItemAppend` | src/Components/ReceiptEditor.jsx:572-574 | removal by id distributes over concatenation |
| `LineItems.AddThenRemove` | src/Components/ReceiptEditor.jsx:562-574 | adding a row under a fresh id and then removing that id restores the original list |
| `LineItems.Subtotal` | src/Components/ReceiptEditor.jsx:602-605 | the `reduce` subtotal is non-negative when every quantity and price is; the lemmas below fix it as the sum of quantity × price |
| `LineItems.SubtotalAppend` | src/Components/ReceiptEditor.jsx:602-605 | the subtotal of two concatenated lists is the sum of their subtotals |
| `LineItems.SubtotalPointwise` | src/Components/ReceiptEditor.jsx:602-605 | the subtotal depends only on the rows' line totals |
| `LineItems.SubtotalIsSumOfLineTotals` | src/Components/ReceiptEditor.jsx:602-605 | the subtotal is 0 for no rows, and each appended row adds its quantity × price |
| `LineItems.AddItemKeepsSubtotal` | src/Components/ReceiptEditor.jsx:562-570 | a new row (quantity 1, price 0) does not change the subtotal |
| `LineItems.RenameKeepsSubtotal` | src/Components/ReceiptEditor.jsx:553-560 | renaming rows never changes the subtotal |
| `Receipts.InitialReceipt` | src/Components/ReceiptEditor.jsx:520-532 | the editor starts with the one seeded row, id 1, the toggle off and an empty override |
| `Receipts.HandleInputChange` | src/Components/ReceiptEditor.jsx:534-540 | the named top-level field takes the delivered value (`checked` for the checkbox) and every other field is unchanged |
| `Receipts.HandleLogoUpload` | src/Components/ReceiptEditor.jsx:542-551 | with no file nothing changes; otherwise only the logo changes, to the file's data URL |
| `Receipts.HandleItemChange` | src/Components/ReceiptEditor.jsx:553-560 | only the items change, row by row as the id rule says |
| `Receipts.HandleAddItem` | src/Components/ReceiptEditor.jsx:562-570 | only the items change: a blank row is appended |
| `Receipts.HandleRemoveItem` | src/Components/ReceiptEditor.jsx:572-574 | only the items change, to the id filter of the old ones; an absent id leaves the receipt identical |
| `Receipts.TaxAmount` | src/Components/ReceiptEditor.jsx:607-610 | the tax is a number exactly when the tax rate is filled in, and is then subtotal × rate / 100 |
| `Receipts.LevyAmount` | src/Components/ReceiptEditor.jsx:612-615 | the levy is a number exactly when the levy rate is filled in, and is then subtotal × rate / 100 |
| `Receipts.EditorGrandTotal` | src/Components/ReceiptEditor.jsx:607-620 | the standalone grand total is a number exactly when the tax rate, levy rate and discount are all filled in; it is then subtotal + subtotal·tax/100 + subtotal·levy/100 − discount |
| `Receipts.TemplateGrandTotal` | src/Components/TemplatePage.jsx:1126-1139 | the template-page grand total is a number exactly when both rates are filled in; a blank discount counts as 0 |
| `Receipts.TemplateCopyAgreesWithEditor` | src/Components/TemplatePage.jsx:1121-1143 | the two editor copies give the same total whenever a discount is entered; with a blank discount the copy gives subtotal + tax + levy |
| `Receipts.BlankDiscountSpoilsEditorTotal` | src/Components/ReceiptEditor.jsx:617-620 | as written, a blank discount makes the standalone total NaN, while the template-page total stays a number |
| `Receipts.FinalTotal` | src/Components/ReceiptEditor.jsx:622-624 | the override's value when the toggle is on and the override is filled in; otherwise the grand total |
| `Receipts.OverrideEditsChooseTotal` | src/Components/ReceiptEditor.jsx:622-624 | clearing the override or switching the toggle off brings the shown total back to the grand total; filling in an amount and switching the toggle on shows exactly that amount |
| `Receipts.InitialTotals` | src/Components/ReceiptEditor.jsx:520-532 | the seeded receipt has subtotal 25, tax 3.75, levy 0.625, and grand and final total 24.375 |
| `Receipts.AddItemKeepsTotals` | src/Components/ReceiptEditor.jsx:562-570 | adding a blank row moves neither editor's grand total |
| `Numerals.Decimal` | src/Components/TemplatePage.jsx:1016 | the decimal text of a number is non-empty and made only of digits |
| `Numerals.ParseInt` | src/Components/TemplatePage.jsx:1016 | `parseInt` gives NaN exactly when no digit follows the optional sign |
| `Numerals.DecimalValue` | src/Components/TemplatePage.jsx:1016 | reading back a printed numeral gives the number |
| `Numerals.LeadingDigitsOfRun` | src/Components/TemplatePage.jsx:1016 | `parseInt` reads a digit run up to the first non-digit |
| `Numerals.PixelsRoundTrip` | src/Components/TemplatePage.jsx:1016 | `parseInt("${n}px")` is `n` for every natural `n` below 10^21, where `${n}` prints plain digits |
| `Templates.InitialTemplates` | src/Components/TemplatePage.jsx:13-129 | there are five built-in templates; their ids, radii and themes are fixed by the lemmas below |
| `Templates.InitialCustomTemplate` | src/Components/TemplatePage.jsx:1368-1373 | the designer starts from a template with id 'custom' on exactly the classic theme, with the same four keys as a built-in |
| `Templates.BuiltInTemplates` | src/Components/TemplatePage.jsx:13-129 | there are five built-in templates with pairwise distinct ids |
| `Templates.BuiltInRadii` | src/Components/TemplatePage.jsx:13-129 | the built-in radii are the texts of 24, 16, 8, 20 and 12 pixels |
| `Templates.BuiltInRadiiInRange` | src/Components/TemplatePage.jsx:1016 | every built-in radius reads back inside the slider's 0..40 range |
| `Templates.SplitPath` | src/Components/TemplatePage.jsx:1379 | splitting a path on '.' gives at least one key, and no key contains a dot |
| `Templates.SplitThenJoin` | src/Components/TemplatePage.jsx:1379 | joining the split keys with '.' gives back the path |
| `Templates.SplitSingleKey` | src/Components/TemplatePage.jsx:1379 | a path with no dot is a single key |
| `Templates.SplitFirstKey` | src/Components/TemplatePage.jsx:1379 | a dot-free key before the first dot splits off as the first key |
| `Templates.JoinThenSplit` | src/Components/TemplatePage.jsx:1379 | splitting joined dot-free keys gives back the keys |
| `Templates.GetIn` | src/Components/TemplatePage.jsx:1381-1383 | reading a dotted path finds nothing when the first key is missing or holds text while more keys follow; through an object it reads the rest of the path inside it, so text met at any depth above the leaf also finds nothing |
| `Templates.SetIn` | src/Components/TemplatePage.jsx:1380-1384 | a successful write keeps every other top-level key and its value and adds at most the first key |
| `Templates.SetInSucceedsIff` | src/Components/TemplatePage.jsx:1380-1384 | the setter succeeds exactly when every key above the leaf names an existing object |
| `Templates.SetInWritesLeaf` | src/Components/TemplatePage.jsx:1384 | after a successful write the addressed leaf holds the new value |
| `Templates.SetInFrame` | src/Components/TemplatePage.jsx:1376-1387 | every path that is neither a prefix nor an extension of the written one reads the same afterwards |
| `Templates.ChangeCustomTemplate` | src/Components/TemplatePage.jsx:1376-1387 | a successful change leaves the value at the dotted path |
| `Templates.View` | src/Components/TemplatePage.jsx:1398-1418 | the editor is shown exactly when a template is selected |
| `Templates.InitialPageShowsPicker` | src/Components/TemplatePage.jsx:1363-1373 | the page opens on the picker with the built-in cards, the designer closed and the starting design loaded |
| `Templates.FirstSaveIsFresh` | src/Components/TemplatePage.jsx:1390-1395 | a first save adds a sixth card whose id no built-in carries |
| `Templates.SaveCustomTemplate` | src/Components/TemplatePage.jsx:1390-1395 | the design is appended once at the end under id `custom-<stamp>`, holding exactly the design's keys plus `id`; earlier templates and the design's other values are untouched; it is selected and the designer closes |
| `Templates.SavedIdIsNotBuiltIn` | src/Components/TemplatePage.jsx:1391 | a saved design's id never equals a built-in id |
| `Templates.SelectTemplate` | src/Components/TemplatePage.jsx:1434 | clicking a card shows the editor in that template's theme |
| `Templates.BackToPicker` | src/Components/TemplatePage.jsx:1402 | "Change Template" returns to the picker with the same cards |
| `Templates.SetCustomizerOpen` | src/Components/TemplatePage.jsx:1411-1418 | opening or closing the designer changes neither the templates nor the design |
| `Templates.RadiusRoundTrip` | src/Components/TemplatePage.jsx:1016 | the slider reads back the radius it wrote |
| `Templates.SpaceWords` | src/Components/TemplatePage.jsx:964 | the label is longer by the number of capitals, and every capital is preceded by a space |
| `Templates.SpaceWordsRoundTrip` | src/Components/TemplatePage.jsx:964 | deleting the spaces before capitals gives back the key |
| `Dashboard.FetchReceipts` | src/Components/DashboardPage.jsx:293-310 | with no user only loading is cleared; otherwise a listing replaces the list and a failure keeps it; loading ends either way |
| `Dashboard.OpenDeleteModal` | src/Components/DashboardPage.jsx:316-319 | the receipt becomes the selection and the delete modal opens |
| `Dashboard.OpenViewEditModal` | src/Components/DashboardPage.jsx:321-324 | the receipt becomes the selection and the options modal opens |
| `Dashboard.CancelDelete` | src/Components/DashboardPage.jsx:445 | Cancel closes the delete modal and keeps the selection |
| `Dashboard.CloseViewEditModal` | src/Components/DashboardPage.jsx:468 | Go Back closes the options modal and keeps the selection |
| `Dashboard.RemoveReceipt` | src/Components/DashboardPage.jsx:330 | keeps exactly the receipts whose id differs, in order |
| `Dashboard.RemoveReceiptCounts` | src/Components/DashboardPage.jsx:330 | removal keeps every receipt whose id differs as many times as it occurs, and none with that id |
| `Dashboard.HandleDelete` | src/Components/DashboardPage.jsx:326-337 | with no user or no selection nothing changes; otherwise success drops the selected id, failure keeps the list, and the modal closes with the selection cleared |
| `Dashboard.DeleteRemovesExactlyTheId` | src/Components/DashboardPage.jsx:326-331 | a successful delete removes every receipt with the selected id and keeps every other one, with its multiplicity, in order |
| `Dashboard.HandleSetViewMode` | src/Components/DashboardPage.jsx:339-343 | the mode and selection take the given values and the options modal closes |
| `Dashboard.HandleBackToDashboard` | src/Components/DashboardPage.jsx:345-349 | back to dashboard mode with no selection and the modals as they were, then the re-fetch: a successful listing replaces the list, and without a user or after a failed listing the list is kept. It is the `onBack` callback handed to the editor, which never calls it |
| `Dashboard.Render` | src/Components/DashboardPage.jsx:362-383 | loading shows the loading state; view or edit mode builds the editor element, given the selection and a read-only flag set exactly in view mode; otherwise the list |
| `Dashboard.ViewOrEditOpensEditor` | src/Components/DashboardPage.jsx:374-383 | choosing View or Edit builds the editor element, given the chosen receipt and a read-only flag set exactly for View |
| `Dashboard.InitialRendersLoading` | src/Components/DashboardPage.jsx:286-291 | the dashboard starts with no receipts and no selection, and shows the loading state first |
| `Dashboard.MountedEditor` | src/Components/ReceiptEditor.jsx:518 | an editor is mounted exactly for the editor element, and, taking no props, it shows the seeded receipt with editable inputs |
| `Dashboard.ViewShowsSeededEditor` | src/Components/DashboardPage.jsx:376-381 | as written, View mounts the seeded, editable editor, which differs from any chosen receipt other than the seeded one |
| `Dashboard.IntendedEditor` | src/Components/DashboardPage.jsx:376-381 | the editor as the props describe it shows the receipt it is given, editable exactly when not read-only |
| `Dashboard.IntendedEditorShowsChoice` | src/Components/DashboardPage.jsx:374-383 | with the intended editor, View shows the chosen receipt read-only and Edit shows it editable |
| `Dashboard.FormatTimestamp` | src/Components/DashboardPage.jsx:351-360 | 'Date not available' exactly when there is no truthy `seconds` and the value is not a Date |
| `Dashboard.CardTotal` | src/Components/DashboardPage.jsx:418 | the factored card total equals subtotal + subtotal·tax/100 + subtotal·levy/100 − discount, with stored blanks counting as 0 |
| `Dashboard.CardTotalMatchesEditor` | src/Components/DashboardPage.jsx:418 | with all rates and the discount filled in, the card's factored total equals both editors' grand totals |
| `Dashboard.CardTotalIgnoresOverride` | src/Components/DashboardPage.jsx:418 | the card total ignores the manual override and its toggle |
| `Dashboard.CardTotalWithBlankDiscount` | src/Components/DashboardPage.jsx:418 | with a blank discount the card agrees with the template-page editor, while the standalone editor shows NaN |
| `Routing.AuthChanged` | src/App.jsx:58-61 | a sign-in change stores the user and ends loading |
| `Routing.Navigate` | src/App.jsx:73-76 | `navigate(p)` sets the current path to p and nothing else |
| `Routing.Render` | src/App.jsx:78-123 | while loading, the loading screen is shown whatever the path; rendering never changes the user or the loading flag |
| `Routing.AuthPagesAreOpen` | src/App.jsx:85-90 | '/login' and '/signup' render their pages with or without a user |
| `Routing.GuardedPages` | src/App.jsx:91-106 | '/templates' and '/dashboard' render their page exactly when a user is present; otherwise the path becomes '/login' and the login page shows |
| `Routing.OtherPathsShowHome` | src/App.jsx:107-122 | every other path renders the home composition |
| `Routing.StartUp` | src/App.jsx:52-80 | the shell first shows the loading screen, and once the identity provider answers it shows the home composition for that user |
| `Routing.RenderSettles` | src/App.jsx:91-106 | rendering the state a render leaves behind shows the same page and changes nothing |
| `SignUp.ErrorMessage` | src/Components/Authentication/SignUp.jsx:358-365 | the in-use and invalid-email codes get their own messages; every other code gets the generic one; the result is always one of the three |
| `SignUp.HandleSignUp` | src/Components/Authentication/SignUp.jsx:342-370 | a password under 6 characters gives the length error without calling the provider; otherwise success leaves for '/' and failure shows the mapped message; loading is off afterwards |
| `SignUp.FirstSubmission` | src/Components/Authentication/SignUp.jsx:342-370 | from the initial page, a short password shows the length message without calling the provider, and an accepted sign-up leaves for '/' with no message |
| `SignUp.SubmitClearsPreviousError` | src/Components/Authentication/SignUp.jsx:343-345 | the message after a submit never depends on the earlier one, and is one of a closed set |
| `SignUp.HandleGoogleSignUp` | src/Components/Authentication/SignUp.jsx:372-385 | Google sign-up clears the error; success leaves for '/', failure shows the fixed message; loading ends |
| `SignUp.NextQuote` | src/Components/Authentication/SignUp.jsx:335-338 | the quote index advances by one modulo 4 and stays within 0..3 |
| `SignUp.QuoteCycle` | src/Components/Authentication/SignUp.jsx:335-338 | after n ticks from the first quote the index is n mod 4 |

## Left out

- Firebase sign-in, sign-up, listing and deletion calls are asynchronous calls into a foreign library. Each is modelled only by its success or failure outcome.
- PDF export (`html2canvas`, `jsPDF`) and `window.print` are browser and library I/O. The `FileReader` is reduced to the data URL it produces.
- `toFixed(2)`, `toLocaleString` and IEEE-754 rounding are left out. Money is exact, and `formatTimestamp` is modelled only up to the branch it takes.
- `parseFloat` of non-numeric text is left out. Numeric inputs hold either nothing or a number.
- `Date.now()` is left out. Item ids and the saved-template stamp are parameters.
- Styled components, themes as CSS, animations and layout are left out. Whether the discount row is displayed is presentation only.
- `Navbar.jsx`, `Footer.jsx`, `Hero.jsx` and `Login.jsx` are left out because they hold no receipt logic. The `setInterval` and `popstate` listeners are reduced to `SignUp.NextQuote` and `Routing.Navigate`.
- Routing.GuardedPages: `Routing` models only the shell's own path switch, reached through `navigate`. The outer router in `main.jsx` mounts the shell at '/' only. It serves '/login', '/signup' and '/templates' itself when visited directly, so a direct visit to '/templates' gets no sign-in check. A direct visit to '/dashboard' matches no route at all. As mounted, the shell's guarded branches are never reached either: the shell starts at '/', and only the dashboard page calls `navigate`, while the dashboard itself is rendered only from the guarded '/dashboard' branch. The other pages the shell renders never call it, and the sign-in and sign-up pages move with links and `window.location.href`.
- Numerals.Decimal: stands for `${n}` only below 10^21. From 10^21 on JavaScript prints exponent form (`1e+21`), and above 2^53 integers are not exact; neither is modelled. The slider's values, 0 to 40, are far inside that range.
- The editor the dashboard mounts (`ReceiptEditor.jsx`) takes no props. The receipt, read-only flag and `onBack` callback the dashboard passes are ignored, so `handleBackToDashboard` is never reached from there. This is recorded under Findings. Saving an edited receipt back to the store is not in the source.
- Dashboard.FetchReceipts: models a fetch from call to completion. The moment in between, with loading on, is not a separate state.
- SignUp.HandleSignUp: models the whole attempt from submit to completion. The moment in between, with loading on and the error cleared, is not a separate state. `password.length` counts Unicode scalar values here, while JavaScript counts UTF-16 code units. The two differ for characters outside the Basic Multilingual Plane.
- Receipts.HandleInputChange: the events are typed, one per bound input. In JavaScript, a value of the wrong kind could be written under any name; that is not modelled.
- Templates.SetIn: fails on any path through a missing key or a text value. JavaScript would also reach a string's index characters and prototype members such as `toString`, and those cases are not modelled.
- Numerals.ParseInt: leading white space and the `0x` hexadecimal prefix are not modelled. Every string parsed here comes from `${n}px` or from a built-in radius.

## Findings

| source | as written | input that shows it | evidently intended | confidence | as-written member | corrected member |
|---|---|---|---|---|---|---|
| src/Components/ReceiptEditor.jsx:617-620 | the grand total subtracts `parseFloat(receipt.discount)`, which is NaN once the discount field is cleared | the seeded receipt with the discount input emptied: the total shows NaN | a blank discount counts as 0, as in the template page's copy (`discount \|\| 0`, src/Components/TemplatePage.jsx:1137) | medium, not executed | `Receipts.BlankDiscountSpoilsEditorTotal` | `Receipts.TemplateGrandTotal` |
| src/Components/DashboardPage.jsx:374-383 | View and Edit mount `ReceiptEditor`, declared at src/Components/ReceiptEditor.jsx:518 with no props, so the chosen receipt, `isReadOnly` and `onBack` are ignored | choose View on any saved receipt other than the seeded one: the seeded receipt is shown, editable, with no way back | the editor shows the chosen receipt, read-only for View, and returns through `onBack` | high, not executed | `Dashboard.ViewShowsSeededEditor` | `Dashboard.IntendedEditorShowsChoice` |

=== FILE: base.dfy ===
/**
 Values shared by every part of the receipt model: optional values, results
 of operations that can fail, the signed-in user, and the two kinds of number
 the form code handles (what a numeric input holds, and the JavaScript number
 that arithmetic over it produces).
 */
module Base {

  /** `null` versus a present value. */
  datatype Option<+T> = None | Some(value: T)

  /** The outcome of an operation that either produces a value or throws. */
  datatype Result<+T, +E> = Success(value: T) | Failure(error: E)

  /** The signed-in account, as the identity provider reports it. */
  datatype User = User(uid: string)

  /** What an `<input type="number">` holds once the user has typed in it: the
      empty string, or a number. The browser never hands such an input
      non-numeric text, so no other string is modelled. */
  datatype Entry = Blank | Amount(x: real)

  /** A JavaScript number, restricted to the values this program can reach:
      an exact real (no rounding, no overflow) or NaN. Every operation
      propagates NaN, as IEEE-754 arithmetic does. */
  datatype Num = Finite(r: real) | NaN {

    function Plus(other: Num): Num {
      if Finite? && other.Finite? then Finite(r + other.r) else NaN
    }

    function Minus(other: Num): Num {
      if Finite? && other.Finite? then Finite(r - other.r) else NaN
    }

    function Times(other: Num): Num {
      if Finite? && other.Finite? then Finite(r * other.r) else NaN
    }

    /** `this / 100`, the percentage-to-fraction step of the tax formulas. */
    function Hundredth(): Num {
      if Finite? then Finite(r / 100.0) else NaN
    }

    /** JavaScript truthiness: NaN and 0 are falsy. */
    predicate Truthy() {
      Finite? && r != 0.0
    }
  }

  /** `parseFloat(e)`: the empty string parses to NaN, a number to itself. */
  function ParseFloat(e: Entry): (n: Num)
    ensures n.NaN? <==> e.Blank?
  {
    match e
    case Blank => NaN
    case Amount(x) => Finite(x)
  }

  /** `parseFloat(e) || 0`, the coercion the quantity and price inputs apply
      before storing their value: a falsy parse (NaN or 0) becomes 0. */
  function ParseFloatOrZero(e: Entry): (x: real)
    ensures e.Blank? ==> x == 0.0
    ensures e.Amount? ==> x == e.x
  {
    var n := ParseFloat(e);
    if n.Truthy() then n.r else 0.0
  }

  /** `e || 0`: the empty string and the number 0 are falsy and become 0;
      anything else is kept. */
  function OrZero(e: Entry): (r: Entry)
    ensures r.Amount?
    ensures e.Amount? ==> r == e
    ensures e.Blank? ==> r == Amount(0.0)
  {
    if e.Amount? && e.x != 0.0 then e else Amount(0.0)
  }

  /** JavaScript's implicit conversion `ToNumber`, applied when a stored value
      meets `/` or `-`: the empty string converts to 0. */
  function ToNumber(e: Entry): (x: real)
    ensures e.Amount? ==> x == e.x
    ensures e.Blank? ==> x == 0.0
  {
    match e
    case Blank => 0.0
    case Amount(v) => v
  }
}

=== FILE: dashboard.dfy ===
/**
 The dashboard: the list of saved receipts, the total shown on each card,
 the delete and view/edit modals, the dashboard/view/edit mode switch, and
 the branch `formatTimestamp` takes. Calls into the document store are
 replaced by their outcome, supplied by the caller.
 */
module Dashboard {
  import opened Base
  import opened Sequences
  import opened LineItems
  import opened Receipts

  /** When a record was saved: a store timestamp (with a `seconds` field), a
      JavaScript `Date`, something else, or nothing at all. */
  datatype Timestamp = Missing | StoreTimestamp(seconds: int) | JsDate(millis: int) | OtherValue

  /** A saved receipt as the store returns it: the record's own `id`, the
      store's document id, the receipt fields, and the save time. */
  datatype SavedReceipt = SavedReceipt(id: int, firestoreId: string, body: Receipt, savedAt: Timestamp)

  datatype Mode = DashboardMode | ViewMode | EditMode

  datatype State = State(
    receipts: seq<SavedReceipt>,
    isLoading: bool,
    deleteModalOpen: bool,
    viewEditModalOpen: bool,
    selected: Option<SavedReceipt>,
    mode: Mode)

  function InitialState(): State {
    State([], true, false, false, None, DashboardMode)
  }

  /** What the store did with a request. */
  datatype Outcome = Done | Rejected

  /** What the listing query returned. */
  datatype Listing = Listed(records: seq<SavedReceipt>) | ListingFailed

  /** `fetchReceipts`, from the call to its completion. Without a user it only
      clears the loading flag; with one, a successful listing replaces the
      list and a failed one keeps it. Loading is off afterwards either way. */
  function FetchReceipts(s: State, user: Option<User>, listing: Listing): (s': State)
    ensures !s'.isLoading
    ensures user.None? ==> s' == s.(isLoading := false)
    ensures user.Some? && listing.Listed? ==> s'.receipts == listing.records
    ensures listing.ListingFailed? ==> s'.receipts == s.receipts
    ensures s'.(receipts := s.receipts, isLoading := s.isLoading) == s
  {
    if user.None? then s.(isLoading := false)
    else
      match listing
      case Listed(records) => s.(receipts := records, isLoading := false)
      case ListingFailed => s.(isLoading := false)
  }

  function OpenDeleteModal(s: State, r: SavedReceipt): (s': State)
    ensures s'.selected == Some(r) && s'.deleteModalOpen
    ensures s'.receipts == s.receipts && s'.mode == s.mode
  {
    s.(selected := Some(r), deleteModalOpen := true)
  }

  function OpenViewEditModal(s: State, r: SavedReceipt): (s': State)
    ensures s'.selected == Some(r) && s'.viewEditModalOpen
    ensures s'.receipts == s.receipts && s'.mode == s.mode
  {
    s.(selected := Some(r), viewEditModalOpen := true)
  }

  /** The Cancel button of the delete modal. */
  function CancelDelete(s: State): (s': State)
    ensures !s'.deleteModalOpen && s'.selected == s.selected && s'.receipts == s.receipts
  {
    s.(deleteModalOpen := false)
  }

  /** The Go Back button of the options modal. */
  function CloseViewEditModal(s: State): (s': State)
    ensures !s'.viewEditModalOpen && s'.selected == s.selected && s'.receipts == s.receipts
  {
    s.(viewEditModalOpen := false)
  }

  /** `receipts.filter(r => r.id !== id)` */
  function RemoveReceipt(receipts: seq<SavedReceipt>, id: int): (r: seq<SavedReceipt>)
    ensures forall x :: x in r ==> x in receipts && x.id != id
    ensures forall x :: x in receipts && x.id != id ==> x in r
    ensures IsSubsequence(r, receipts)
  {
    Filter(receipts, (x: SavedReceipt) => x.id != id)
  }

  /** Removal keeps every receipt whose id differs as many times as it
      occurs, and none with that id. */
  lemma RemoveReceiptCounts(receipts: seq<SavedReceipt>, id: int)
    ensures forall x :: multiset(RemoveReceipt(receipts, id))[x] == if x.id != id then multiset(receipts)[x] else 0
  {
    FilterCounts(receipts, (x: SavedReceipt) => x.id != id);
  }

  /** `handleDelete`. With no user or nothing selected it returns before its
      `try`, so nothing changes and the modal stays as it was. Otherwise the
      store's answer decides whether the list loses the selected record's id,
      and in both cases the modal closes and the selection is cleared. */
  function HandleDelete(s: State, user: Option<User>, outcome: Outcome): (s': State)
    ensures user.None? || s.selected.None? ==> s' == s
    ensures user.Some? && s.selected.Some? ==>
      && !s'.deleteModalOpen
      && s'.selected.None?
      && s'.mode == s.mode
      && s'.viewEditModalOpen == s.viewEditModalOpen
      && s'.isLoading == s.isLoading
    ensures user.Some? && s.selected.Some? && outcome.Done? ==>
      s'.receipts == RemoveReceipt(s.receipts, s.selected.value.id)
    ensures outcome.Rejected? ==> s'.receipts == s.receipts
  {
    if user.None? || s.selected.None? then s
    else
      var kept := if outcome.Done? then RemoveReceipt(s.receipts, s.selected.value.id) else s.receipts;
      s.(receipts := kept, deleteModalOpen := false, selected := None)
  }

  /** A successful delete leaves no record carrying the deleted id, and keeps
      every other record in its place in the order. */
  lemma DeleteRemovesExactlyTheId(s: State, u: User)
    requires s.selected.Some?
    ensures var s' := HandleDelete(s, Some(u), Done);
      && (forall x :: x in s'.receipts ==> x in s.receipts && x.id != s.selected.value.id)
      && (forall x :: x in s.receipts && x.id != s.selected.value.id ==> x in s'.receipts)
      && (forall x :: multiset(s'.receipts)[x] ==
            if x.id != s.selected.value.id then multiset(s.receipts)[x] else 0)
      && IsSubsequence(s'.receipts, s.receipts)
  {
    RemoveReceiptCounts(s.receipts, s.selected.value.id);
  }

  /** `handleSetViewMode(mode, receipt)` */
  function HandleSetViewMode(s: State, m: Mode, r: Option<SavedReceipt>): (s': State)
    ensures s'.mode == m && s'.selected == r && !s'.viewEditModalOpen
    ensures s'.receipts == s.receipts && s'.deleteModalOpen == s.deleteModalOpen && s'.isLoading == s.isLoading
  {
    s.(selected := r, mode := m, viewEditModalOpen := false)
  }

  /** `handleBackToDashboard`: back to the list with no selection, followed
      by the re-fetch it starts. */
  function HandleBackToDashboard(s: State, user: Option<User>, listing: Listing): (s': State)
    ensures s'.mode == DashboardMode && s'.selected.None? && !s'.isLoading
    ensures user.None? || listing.ListingFailed? ==> s'.receipts == s.receipts
    ensures user.Some? && listing.Listed? ==> s'.receipts == listing.records
    ensures s'.deleteModalOpen == s.deleteModalOpen && s'.viewEditModalOpen == s.viewEditModalOpen
  {
    FetchReceipts(s.(mode := DashboardMode, selected := None), user, listing)
  }

  /** What the dashboard renders. `EditorElement` is the editor element it
      builds, with the chosen receipt and the read-only flag as props. */
  datatype Screen =
    | LoadingScreen
    | EditorElement(receipt: Option<SavedReceipt>, readOnly: bool)
    | ListScreen(receipts: seq<SavedReceipt>, deleteModal: bool, optionsModal: bool)

  function Render(s: State): (v: Screen)
    ensures s.isLoading ==> v == LoadingScreen
    ensures !s.isLoading && s.mode != DashboardMode ==>
      v == EditorElement(s.selected, s.mode == ViewMode)
    ensures !s.isLoading && s.mode == DashboardMode ==> v.ListScreen? && v.receipts == s.receipts
  {
    if s.isLoading then LoadingScreen
    else if s.mode.ViewMode? || s.mode.EditMode? then EditorElement(s.selected, s.mode == ViewMode)
    else ListScreen(s.receipts, s.deleteModalOpen, s.viewEditModalOpen)
  }

  /** Choosing View or Edit in the options modal builds the editor element,
      given the chosen receipt and a read-only flag set exactly for View. */
  lemma ViewOrEditOpensEditor(s: State, m: Mode, r: Option<SavedReceipt>)
    requires !s.isLoading && m != DashboardMode
    ensures Render(HandleSetViewMode(s, m, r)) == EditorElement(r, m == ViewMode)
  {
  }

  /** The dashboard starts out loading, so the loading state is shown first. */
  lemma InitialRendersLoading()
    ensures Render(InitialState()) == LoadingScreen
    ensures InitialState().receipts == [] && InitialState().selected.None?
  {
  }

  /** What a mounted editor shows: its receipt, and whether its inputs accept
      changes. */
  datatype EditorView = EditorView(receipt: Receipt, editable: bool)

  /** The editor actually mounted for a screen, as written. The imported
      editor component takes no props: it ignores the receipt, the read-only
      flag and the back callback it is given, and always starts from the
      seeded receipt with every input editable. */
  function MountedEditor(v: Screen): (e: Option<EditorView>)
    ensures e.Some? <==> v.EditorElement?
    ensures v.EditorElement? ==> e.value.receipt == InitialReceipt() && e.value.editable
  {
    if v.EditorElement? then Some(EditorView(InitialReceipt(), true)) else None
  }

  /** As written, View mode shows neither the chosen receipt nor a read-only
      form: for any chosen receipt other than the seeded one, what is shown
      differs from it, and the inputs accept changes. */
  lemma ViewShowsSeededEditor(s: State, x: SavedReceipt)
    requires !s.isLoading
    ensures var e := MountedEditor(Render(HandleSetViewMode(s, ViewMode, Some(x))));
      && e == Some(EditorView(InitialReceipt(), true))
      && (x.body != InitialReceipt() ==> e.value.receipt != x.body)
      && e.value.editable
  {
  }

  /** The editor as the dashboard evidently means it: it shows the receipt it
      is given, read-only when asked; with no receipt it starts from the
      seeded one. */
  function IntendedEditor(v: Screen): (e: Option<EditorView>)
    ensures e.Some? <==> v.EditorElement?
    ensures v.EditorElement? && v.receipt.Some? ==> e.value.receipt == v.receipt.value.body
    ensures v.EditorElement? ==> (e.value.editable <==> !v.readOnly)
  {
    match v
    case EditorElement(Some(x), ro) => Some(EditorView(x.body, !ro))
    case EditorElement(None, ro) => Some(EditorView(InitialReceipt(), !ro))
    case _ => None
  }

  /** With the intended editor, View opens the chosen receipt read-only and
      Edit opens it editable. */
  lemma IntendedEditorShowsChoice(s: State, m: Mode, x: SavedReceipt)
    requires !s.isLoading && m != DashboardMode
    ensures IntendedEditor(Render(HandleSetViewMode(s, m, Some(x)))) == Some(EditorView(x.body, m == EditMode))
  {
  }

  /** Which branch `formatTimestamp` takes. */
  datatype TimestampText = LocalTimeOfMillis(millis: int) | LocalTimeOfDate(millis: int) | DateNotAvailable

  /** `formatTimestamp`: a truthy `seconds` field wins (so a store timestamp
      of exactly 0 seconds does not); then a `Date`; otherwise the fallback
      text. Locale formatting itself is not modelled. */
  function FormatTimestamp(t: Timestamp): (r: TimestampText)
    ensures r == DateNotAvailable <==> !(t.StoreTimestamp? && t.seconds != 0) && !t.JsDate?
    ensures t.StoreTimestamp? && t.seconds != 0 ==> r == LocalTimeOfMillis(t.seconds * 1000)
  {
    match t
    case StoreTimestamp(sec) =>
      if sec != 0 then LocalTimeOfMillis(sec * 1000) else DateNotAvailable
    case JsDate(ms) => LocalTimeOfDate(ms)
    case Missing => DateNotAvailable
    case OtherValue => DateNotAvailable
  }

  /** The total printed on a dashboard card:
      `subtotal * (1 + taxRate / 100 + vatRate / 100) - discount`, where
      JavaScript's `/` and `-` turn an empty stored string into 0. */
  function CardTotal(r: Receipt): (c: real)
    ensures var s := Subtotal(r.items);
      c == s + s * (ToNumber(r.taxRate) / 100.0) + s * (ToNumber(r.vatRate) / 100.0) - ToNumber(r.discount)
  {
    var s := Subtotal(r.items);
    s * (1.0 + ToNumber(r.taxRate) / 100.0 + ToNumber(r.vatRate) / 100.0) - ToNumber(r.discount)
  }

  /** With every rate and the discount filled in, the card shows exactly the
      editor's grand total, whatever the manual override says. */
  lemma CardTotalMatchesEditor(r: Receipt)
    requires r.taxRate.Amount? && r.vatRate.Amount? && r.discount.Amount?
    ensures EditorGrandTotal(r) == Finite(CardTotal(r))
    ensures TemplateGrandTotal(r) == Finite(CardTotal(r))
  {
    var s := Subtotal(r.items);
    var t := r.taxRate.x / 100.0;
    var v := r.vatRate.x / 100.0;
    assert s * (1.0 + t + v) == s + s * t + s * v;
  }

  /** The card total never looks at the manual override or its toggle. */
  lemma CardTotalIgnoresOverride(r: Receipt, manual: bool, override: Entry)
    ensures CardTotal(r.(isManualTotal := manual, totalOverride := override)) == CardTotal(r)
  {
  }

  /** With a blank discount the card still agrees with the template page's
      editor, which also counts it as 0, while the standalone editor shows NaN. */
  lemma CardTotalWithBlankDiscount(r: Receipt)
    requires r.taxRate.Amount? && r.vatRate.Amount? && r.discount.Blank?
    ensures TemplateGrandTotal(r) == Finite(CardTotal(r))
    ensures EditorGrandTotal(r) == NaN
  {
    BlankDiscountSpoilsEditorTotal(r);
    var s := Subtotal(r.items);
    var t := r.taxRate.x / 100.0;
    var v := r.vatRate.x / 100.0;
    assert s * (1.0 + t + v) == s + s * t + s * v;
  }
}

=== FILE: line_items.dfy ===
/**
 The line items of a receipt and the three id-keyed list operations the
 editor offers on them (edit one field, append a blank row, remove a row),
 together with the subtotal they feed. The same handlers appear verbatim in
 the standalone editor and in the copy embedded in the template page.
 */
module LineItems {
  import opened Base
  import opened Sequences

  /** One row of the receipt. Quantity and price always hold numbers: the
      seeded row and a new row are created with numbers, and edits through
      the numeric inputs are coerced before they are stored. */
  datatype Item = Item(id: int, name: string, quantity: real, price: real)

  /** The `(field, value)` pair `handleItemChange` receives. */
  datatype ItemEdit = SetName(name: string) | SetQuantity(quantity: real) | SetPrice(price: real)

  function LineTotal(it: Item): real {
    it.quantity * it.price
  }

  /** `{ ...item, [field]: value }`: the named field takes the value, the id
      and the other fields are kept. */
  function ApplyEdit(it: Item, e: ItemEdit): (r: Item)
    ensures r.id == it.id
    ensures e.SetName? ==> r.name == e.name && r.quantity == it.quantity && r.price == it.price
    ensures e.SetQuantity? ==> r.quantity == e.quantity && r.name == it.name && r.price == it.price
    ensures e.SetPrice? ==> r.price == e.price && r.name == it.name && r.quantity == it.quantity
  {
    match e
    case SetName(n) => it.(name := n)
    case SetQuantity(q) => it.(quantity := q)
    case SetPrice(p) => it.(price := p)
  }

  /** What the quantity input hands to `handleItemChange`: the typed text,
      coerced with `parseFloat(..) || 0`. */
  function QuantityInput(typed: Entry): (e: ItemEdit)
    ensures e.SetQuantity?
    ensures typed.Blank? ==> e.quantity == 0.0
    ensures typed.Amount? ==> e.quantity == typed.x
  {
    SetQuantity(ParseFloatOrZero(typed))
  }

  /** What the price input hands to `handleItemChange`, coerced the same way. */
  function PriceInput(typed: Entry): (e: ItemEdit)
    ensures e.SetPrice?
    ensures typed.Blank? ==> e.price == 0.0
    ensures typed.Amount? ==> e.price == typed.x
  {
    SetPrice(ParseFloatOrZero(typed))
  }

  function Ids(items: seq<Item>): set<int> {
    set it | it in items :: it.id
  }

  /** `items.map(item => item.id === id ? { ...item, [field]: value } : item)`:
      every row whose id matches is edited, every other row is kept, and the
      length and order of the list do not change. */
  function UpdateItem(items: seq<Item>, id: int, e: ItemEdit): (r: seq<Item>)
    ensures |r| == |items|
    ensures forall i :: 0 <= i < |items| && items[i].id == id ==> r[i] == ApplyEdit(items[i], e)
    ensures forall i :: 0 <= i < |items| && items[i].id != id ==> r[i] == items[i]
    decreases |items|
  {
    if items == [] then []
    else
      var head := if items[0].id == id then ApplyEdit(items[0], e) else items[0];
      [head] + UpdateItem(items[1..], id, e)
  }

  /** The row `handleAddItem` creates, with a caller-supplied fresh id. */
  function BlankItem(id: int): Item {
    Item(id, "", 1.0, 0.0)
  }

  /** `[...items, newItem]`: one blank row at the end, the prefix untouched. */
  function AddItem(items: seq<Item>, freshId: int): (r: seq<Item>)
    ensures |r| == |items| + 1
    ensures r[..|items|] == items
    ensures r[|items|] == Item(freshId, "", 1.0, 0.0)
  {
    items + [BlankItem(freshId)]
  }

  /** `items.filter(item => item.id !== id)`. */
  function RemoveItem(items: seq<Item>, id: int): (r: seq<Item>)
    ensures forall it :: it in r ==> it in items && it.id != id
    ensures forall it :: it in items && it.id != id ==> it in r
    ensures IsSubsequence(r, items)
    ensures id !in Ids(items) ==> r == items
    ensures Ids(r) == Ids(items) - {id}
  {
    Filter(items, (it: Item) => it.id != id)
  }

  /** Every row has a non-negative quantity and price. */
  predicate NonNegativeRows(items: seq<Item>) {
    forall i :: 0 <= i < |items| ==> items[i].quantity >= 0.0 && items[i].price >= 0.0
  }

  /** `items.reduce((sum, item) => sum + item.quantity * item.price, 0)`,
      folded from the left as `reduce` does. */
  function Subtotal(items: seq<Item>): (s: real)
    ensures NonNegativeRows(items) ==> s >= 0.0
    decreases |items|
  {
    if items == [] then 0.0
    else Subtotal(items[..|items| - 1]) + LineTotal(items[|items| - 1])
  }

  /** The subtotal of a concatenation is the sum of the subtotals. */
  lemma {:induction false} SubtotalAppend(a: seq<Item>, b: seq<Item>)
    ensures Subtotal(a + b) == Subtotal(a) + Subtotal(b)
    decreases |b|
  {
    if b == [] {
      assert a + b == a;
    } else {
      var b' := b[..|b| - 1];
      assert (a + b)[..|a + b| - 1] == a + b';
      assert (a + b)[|a + b| - 1] == b[|b| - 1];
      SubtotalAppend(a, b');
    }
  }

  /** Lists with the same line totals, row for row, have the same subtotal. */
  lemma {:induction false} SubtotalPointwise(a: seq<Item>, b: seq<Item>)
    requires |a| == |b|
    requires forall i :: 0 <= i < |a| ==> LineTotal(a[i]) == LineTotal(b[i])
    ensures Subtotal(a) == Subtotal(b)
    decreases |a|
  {
    if a != [] {
      SubtotalPointwise(a[..|a| - 1], b[..|b| - 1]);
    }
  }

  /** The subtotal is the sum of quantity times price: nothing for an empty
      list, and one more line total for each row appended. */
  lemma SubtotalIsSumOfLineTotals(items: seq<Item>, it: Item)
    ensures Subtotal([]) == 0.0
    ensures Subtotal(items + [it]) == Subtotal(items) + it.quantity * it.price
  {
    SubtotalAppend(items, [it]);
    assert Subtotal([it]) == Subtotal([]) + LineTotal(it);
  }

  /** A new row has quantity 1 and price 0, so adding it leaves the subtotal alone. */
  lemma AddItemKeepsSubtotal(items: seq<Item>, freshId: int)
    ensures Subtotal(AddItem(items, freshId)) == Subtotal(items)
  {
    SubtotalIsSumOfLineTotals(items, BlankItem(freshId));
  }

  /** Renaming rows never changes the subtotal. */
  lemma RenameKeepsSubtotal(items: seq<Item>, id: int, name: string)
    ensures Subtotal(UpdateItem(items, id, SetName(name))) == Subtotal(items)
  {
    SubtotalPointwise(UpdateItem(items, id, SetName(name)), items);
  }

  /** Editing keeps the set of ids, and an edit aimed at an absent id is a no-op. */
  lemma UpdateItemKeepsIds(items: seq<Item>, id: int, e: ItemEdit)
    ensures Ids(UpdateItem(items, id, e)) == Ids(items)
    ensures id !in Ids(items) ==> UpdateItem(items, id, e) == items
  {
    var r := UpdateItem(items, id, e);
    forall x | x in Ids(r) ensures x in Ids(items) {
      var i :| 0 <= i < |r| && r[i].id == x;
      assert items[i] in items;
    }
    forall x | x in Ids(items) ensures x in Ids(r) {
      var i :| 0 <= i < |items| && items[i].id == x;
      assert r[i] in r;
    }
    if id !in Ids(items) {
      forall i | 0 <= i < |items| ensures items[i].id != id {
        assert items[i] in items;
      }
    }
  }

  /** Removal keeps every row whose id differs as many times as it occurs,
      and no row with that id. */
  lemma RemoveItemCounts(items: seq<Item>, id: int)
    ensures forall it :: multiset(RemoveItem(items, id))[it] == if it.id != id then multiset(items)[it] else 0
  {
    FilterCounts(items, (it: Item) => it.id != id);
  }

  /** Removing a row distributes over concatenation. */
  lemma RemoveItemAppend(a: seq<Item>, b: seq<Item>, id: int)
    ensures RemoveItem(a + b, id) == RemoveItem(a, id) + RemoveItem(b, id)
  {
    FilterAppend(a, b, (it: Item) => it.id != id);
  }

  /** Adding a row under a fresh id and then removing that id gives back the
      original list. */
  lemma AddThenRemove(items: seq<Item>, freshId: int)
    requires freshId !in Ids(items)
    ensures RemoveItem(AddItem(items, freshId), freshId) == items
  {
    RemoveItemAppend(items, [BlankItem(freshId)], freshId);
    assert RemoveItem([BlankItem(freshId)], freshId) == [];
  }
}

=== FILE: numerals.dfy ===
/**
 Decimal text for natural numbers, as a template literal `${n}` renders
 integers below 10^21 (from 10^21 on JavaScript switches to exponent form,
 which is not modelled), and `parseInt` as the border-radius slider applies it to text such as
 "24px": an optional sign, then the longest run of decimal digits; no digits
 at all gives NaN (`None`).
 */
module Numerals {
  import opened Base

  predicate IsDigit(c: char) {
    '0' <= c <= '9'
  }

  predicate AllDigits(s: string) {
    forall i :: 0 <= i < |s| ==> IsDigit(s[i])
  }

  function DigitChar(d: nat): (c: char)
    requires d < 10
    ensures IsDigit(c)
  {
    ('0' as int + d) as char
  }

  function DigitValue(c: char): (d: nat)
    requires IsDigit(c)
    ensures d < 10
  {
    c as int - '0' as int
  }

  /** The decimal numeral of `n`, without leading zeros. */
  function Decimal(n: nat): (s: string)
    ensures |s| >= 1
    ensures AllDigits(s)
    decreases n
  {
    if n < 10 then [DigitChar(n)] else Decimal(n / 10) + [DigitChar(n % 10)]
  }

  /** The number a run of decimal digits denotes, read left to right. */
  function DigitsValue(s: string): nat
    requires AllDigits(s)
    decreases |s|
  {
    if s == [] then 0 else DigitsValue(s[..|s| - 1]) * 10 + DigitValue(s[|s| - 1])
  }

  /** The longest prefix of `s` made of digits. */
  function LeadingDigits(s: string): (d: string)
    ensures d <= s
    ensures AllDigits(d)
    ensures |d| < |s| ==> !IsDigit(s[|d|])
    decreases |s|
  {
    if s == [] || !IsDigit(s[0]) then [] else [s[0]] + LeadingDigits(s[1..])
  }

  /** `parseInt(s)` in base 10. */
  function ParseInt(s: string): (r: Option<int>)
    ensures r.None? <==>
      (if |s| > 0 && (s[0] == '-' || s[0] == '+') then |s| == 1 || !IsDigit(s[1]) else |s| == 0 || !IsDigit(s[0]))
  {
    var signed := |s| > 0 && (s[0] == '-' || s[0] == '+');
    var digits := LeadingDigits(if signed then s[1..] else s);
    if digits == [] then None
    else if signed && s[0] == '-' then Some(0 - DigitsValue(digits))
    else Some(DigitsValue(digits))
  }

  /** Reading back a numeral gives the number it was printed from. */
  lemma {:induction false} DecimalValue(n: nat)
    ensures DigitsValue(Decimal(n)) == n
    decreases n
  {
    if n >= 10 {
      var s := Decimal(n);
      assert s[..|s| - 1] == Decimal(n / 10);
      DecimalValue(n / 10);
    }
  }

  /** A digit run followed by a non-digit (or nothing) is read in full. */
  lemma LeadingDigitsOfRun(d: string, rest: string)
    requires AllDigits(d)
    requires rest == [] || !IsDigit(rest[0])
    ensures LeadingDigits(d + rest) == d
  {
    var l := LeadingDigits(d + rest);
    if |l| < |d| {
      assert false;
    } else if |l| > |d| {
      assert false;
    }
    assert l == (d + rest)[..|d|] == d;
  }

  /** `parseInt(`${n}px`)` is `n`, for every natural `n` below 10^21, where
      `${n}` prints plain digits (the model's `Decimal`). */
  lemma PixelsRoundTrip(n: nat)
    ensures ParseInt(Decimal(n) + "px") == Some(n)
  {
    var s := Decimal(n) + "px";
    assert s[0] == Decimal(n)[0];
    assert "px"[0] == 'p';
    LeadingDigitsOfRun(Decimal(n), "px");
    DecimalValue(n);
  }
}

=== FILE: receipts.dfy ===
/**
 The editable receipt of the editor: its initial state, the top-level field
 handler, the item handlers lifted to the receipt, and the chain of derived
 totals (subtotal, tax, levy, grand total, final total).

 Two copies of the editor exist. The standalone one subtracts
 `parseFloat(discount)`, so a blank discount makes the total NaN; the copy on
 the template page subtracts `parseFloat(discount || 0)`, so a blank discount
 counts as 0. Both are modelled, as `EditorGrandTotal` and `TemplateGrandTotal`.
 */
module Receipts {
  import opened Base
  import opened LineItems

  /** The editor's state. The rate, discount and override fields hold what the
      numeric inputs hold; the initial values are numbers, later values are
      whatever was typed. */
  datatype Receipt = Receipt(
    brandName: string,
    logo: Option<string>,
    address: string,
    phone: string,
    items: seq<Item>,
    taxRate: Entry,
    vatRate: Entry,
    discount: Entry,
    currency: string,
    totalOverride: Entry,
    isManualTotal: bool)

  /** The state both editors start from, with one seeded row. */
  function InitialReceipt(): (r: Receipt)
    ensures |r.items| == 1 && r.items[0].id == 1
    ensures !r.isManualTotal && r.totalOverride == Blank
  {
    Receipt(
      "Your Brand", None, "123 Main Street, Anytown", "(123) 456-7890",
      [Item(1, "Sample Item", 2.0, 12.5)],
      Amount(15.0), Amount(2.5), Amount(5.0), "GH₵", Blank, false)
  }

  /** The top-level fields the form's inputs are bound to by `name`. */
  datatype FieldName =
    | BrandNameField | AddressField | PhoneField
    | TaxRateField | VatRateField | DiscountField
    | CurrencyField | TotalOverrideField | ManualTotalField

  /** The value a field holds: text, a numeric entry, or a checkbox state. */
  datatype FieldValue = Text(s: string) | Number(e: Entry) | Flag(b: bool)

  /** Reading a top-level field by name. */
  function Field(r: Receipt, n: FieldName): FieldValue {
    match n
    case BrandNameField => Text(r.brandName)
    case AddressField => Text(r.address)
    case PhoneField => Text(r.phone)
    case TaxRateField => Number(r.taxRate)
    case VatRateField => Number(r.vatRate)
    case DiscountField => Number(r.discount)
    case CurrencyField => Text(r.currency)
    case TotalOverrideField => Number(r.totalOverride)
    case ManualTotalField => Flag(r.isManualTotal)
  }

  /** A change event from one of the bound inputs: text boxes and the currency
      select deliver `value`; numeric boxes deliver what they hold; the one
      checkbox, `isManualTotal`, delivers `checked`. */
  datatype InputChange =
    | BrandNameChanged(text: string)
    | AddressChanged(text: string)
    | PhoneChanged(text: string)
    | TaxRateChanged(entry: Entry)
    | VatRateChanged(entry: Entry)
    | DiscountChanged(entry: Entry)
    | CurrencyChanged(text: string)
    | TotalOverrideChanged(entry: Entry)
    | ManualTotalToggled(checked: bool)
  {
    function Target(): FieldName {
      match this
      case BrandNameChanged(_) => BrandNameField
      case AddressChanged(_) => AddressField
      case PhoneChanged(_) => PhoneField
      case TaxRateChanged(_) => TaxRateField
      case VatRateChanged(_) => VatRateField
      case DiscountChanged(_) => DiscountField
      case CurrencyChanged(_) => CurrencyField
      case TotalOverrideChanged(_) => TotalOverrideField
      case ManualTotalToggled(_) => ManualTotalField
    }

    /** `type === 'checkbox' ? checked : value` */
    function Stored(): FieldValue {
      match this
      case BrandNameChanged(t) => Text(t)
      case AddressChanged(t) => Text(t)
      case PhoneChanged(t) => Text(t)
      case TaxRateChanged(e) => Number(e)
      case VatRateChanged(e) => Number(e)
      case DiscountChanged(e) => Number(e)
      case CurrencyChanged(t) => Text(t)
      case TotalOverrideChanged(e) => Number(e)
      case ManualTotalToggled(c) => Flag(c)
    }
  }

  /** `{ ...prev, [name]: type === 'checkbox' ? checked : value }`: the named
      field takes the delivered value and nothing else changes. */
  function HandleInputChange(r: Receipt, c: InputChange): (r': Receipt)
    ensures Field(r', c.Target()) == c.Stored()
    ensures forall n :: n != c.Target() ==> Field(r', n) == Field(r, n)
    ensures r'.items == r.items && r'.logo == r.logo
    ensures c.ManualTotalToggled? ==> r'.isManualTotal == c.checked
  {
    match c
    case BrandNameChanged(t) => r.(brandName := t)
    case AddressChanged(t) => r.(address := t)
    case PhoneChanged(t) => r.(phone := t)
    case TaxRateChanged(e) => r.(taxRate := e)
    case VatRateChanged(e) => r.(vatRate := e)
    case DiscountChanged(e) => r.(discount := e)
    case CurrencyChanged(t) => r.(currency := t)
    case TotalOverrideChanged(e) => r.(totalOverride := e)
    case ManualTotalToggled(b) => r.(isManualTotal := b)
  }

  /** `handleLogoUpload`: when a file was chosen, the data URL the reader
      produces becomes the logo; with no file nothing happens. */
  function HandleLogoUpload(r: Receipt, chosen: Option<string>): (r': Receipt)
    ensures chosen.None? ==> r' == r
    ensures chosen.Some? ==> r'.logo == chosen && r'.(logo := r.logo) == r
  {
    match chosen
    case None => r
    case Some(dataUrl) => r.(logo := Some(dataUrl))
  }

  /** `handleItemChange`: the item list is updated by id, every other field kept. */
  function HandleItemChange(r: Receipt, id: int, e: ItemEdit): (r': Receipt)
    ensures r'.(items := r.items) == r
    ensures |r'.items| == |r.items|
    ensures forall i :: 0 <= i < |r.items| ==>
      r'.items[i] == if r.items[i].id == id then ApplyEdit(r.items[i], e) else r.items[i]
  {
    r.(items := UpdateItem(r.items, id, e))
  }

  /** `handleAddItem`, with the `Date.now()` id supplied by the caller. */
  function HandleAddItem(r: Receipt, freshId: int): (r': Receipt)
    ensures r'.(items := r.items) == r
    ensures r'.items == r.items + [Item(freshId, "", 1.0, 0.0)]
  {
    r.(items := AddItem(r.items, freshId))
  }

  /** `handleRemoveItem`. */
  function HandleRemoveItem(r: Receipt, id: int): (r': Receipt)
    ensures r'.(items := r.items) == r
    ensures r'.items == RemoveItem(r.items, id)
    ensures id !in Ids(r.items) ==> r' == r
    ensures Ids(r'.items) == Ids(r.items) - {id}
  {
    r.(items := RemoveItem(r.items, id))
  }

  /** `subtotal * (parseFloat(receipt.taxRate) / 100)` */
  function TaxAmount(r: Receipt): (n: Num)
    ensures n.Finite? <==> r.taxRate.Amount?
    ensures n.Finite? ==> n.r == Subtotal(r.items) * r.taxRate.x / 100.0
  {
    Finite(Subtotal(r.items)).Times(ParseFloat(r.taxRate).Hundredth())
  }

  /** `subtotal * (parseFloat(receipt.vatRate) / 100)`, the levy. */
  function LevyAmount(r: Receipt): (n: Num)
    ensures n.Finite? <==> r.vatRate.Amount?
    ensures n.Finite? ==> n.r == Subtotal(r.items) * r.vatRate.x / 100.0
  {
    Finite(Subtotal(r.items)).Times(ParseFloat(r.vatRate).Hundredth())
  }

  /** `subtotal + taxAmount + vatAmount - parseFloat(receipt.discount)`, as the
      standalone editor writes it: a number exactly when the rates and the
      discount are all filled in, and then subtotal plus tax plus levy minus
      discount. */
  function EditorGrandTotal(r: Receipt): (g: Num)
    ensures g.Finite? <==> r.taxRate.Amount? && r.vatRate.Amount? && r.discount.Amount?
    ensures g.Finite? ==>
      var s := Subtotal(r.items);
      g.r == s + s * (r.taxRate.x / 100.0) + s * (r.vatRate.x / 100.0) - r.discount.x
  {
    Finite(Subtotal(r.items)).Plus(TaxAmount(r)).Plus(LevyAmount(r)).Minus(ParseFloat(r.discount))
  }

  /** `... - parseFloat(receipt.discount || 0)`, as the template page's copy
      writes it: a blank discount counts as 0, so only the two rates can make
      it NaN. */
  function TemplateGrandTotal(r: Receipt): (g: Num)
    ensures g.Finite? <==> r.taxRate.Amount? && r.vatRate.Amount?
    ensures g.Finite? ==>
      var s := Subtotal(r.items);
      g.r == s + s * (r.taxRate.x / 100.0) + s * (r.vatRate.x / 100.0) - ToNumber(r.discount)
  {
    Finite(Subtotal(r.items)).Plus(TaxAmount(r)).Plus(LevyAmount(r)).Minus(ParseFloat(OrZero(r.discount)))
  }

  /** `isManualTotal && totalOverride !== '' ? parseFloat(totalOverride) : grandTotal` */
  function FinalTotal(r: Receipt, grandTotal: Num): (f: Num)
    ensures !r.isManualTotal || r.totalOverride == Blank ==> f == grandTotal
    ensures r.isManualTotal && r.totalOverride.Amount? ==> f == Finite(r.totalOverride.x)
  {
    if r.isManualTotal && r.totalOverride != Blank then ParseFloat(r.totalOverride) else grandTotal
  }

  /** The two copies agree whenever a discount is filled in; with a blank
      discount the template copy yields subtotal + tax + levy. */
  lemma TemplateCopyAgreesWithEditor(r: Receipt)
    ensures r.discount.Amount? ==> TemplateGrandTotal(r) == EditorGrandTotal(r)
    ensures r.discount.Blank? ==>
      TemplateGrandTotal(r) == Finite(Subtotal(r.items)).Plus(TaxAmount(r)).Plus(LevyAmount(r))
  {
  }

  /** As written, the standalone editor turns a blank discount into a NaN
      total, even when every other input is filled in. */
  lemma BlankDiscountSpoilsEditorTotal(r: Receipt)
    requires r.discount.Blank?
    ensures EditorGrandTotal(r) == NaN
    ensures r.taxRate.Amount? && r.vatRate.Amount? ==> TemplateGrandTotal(r).Finite?
  {
  }

  /** Clearing the override, or switching the toggle off, brings the shown
      total back to the grand total; filling the override in and switching
      the toggle on shows exactly the typed amount. */
  lemma OverrideEditsChooseTotal(r: Receipt, grandTotal: Num, x: real)
    ensures FinalTotal(HandleInputChange(r, TotalOverrideChanged(Blank)), grandTotal) == grandTotal
    ensures FinalTotal(HandleInputChange(r, ManualTotalToggled(false)), grandTotal) == grandTotal
    ensures var r' := HandleInputChange(HandleInputChange(r, TotalOverrideChanged(Amount(x))), ManualTotalToggled(true));
      FinalTotal(r', grandTotal) == Finite(x)
  {
  }

  /** The seeded receipt: 2 x 12.50 at 15% tax, 2.5% levy and 5 off. */
  lemma InitialTotals()
    ensures Subtotal(InitialReceipt().items) == 25.0
    ensures TaxAmount(InitialReceipt()) == Finite(3.75)
    ensures LevyAmount(InitialReceipt()) == Finite(0.625)
    ensures EditorGrandTotal(InitialReceipt()) == Finite(24.375)
    ensures TemplateGrandTotal(InitialReceipt()) == Finite(24.375)
    ensures FinalTotal(InitialReceipt(), EditorGrandTotal(InitialReceipt())) == Finite(24.375)
  {
    var items := InitialReceipt().items;
    assert items[..0] == [];
    assert Subtotal(items) == Subtotal([]) + 2.0 * 12.5;
  }

  /** Adding a blank row never moves any of the totals. */
  lemma AddItemKeepsTotals(r: Receipt, freshId: int)
    ensures EditorGrandTotal(HandleAddItem(r, freshId)) == EditorGrandTotal(r)
    ensures TemplateGrandTotal(HandleAddItem(r, freshId)) == TemplateGrandTotal(r)
  {
    AddItemKeepsSubtotal(r.items, freshId);
  }
}

=== FILE: routing.dfy ===
/**
 The application shell: path-based page selection with the sign-in guard,
 `navigate`, the reaction to sign-in changes, and the loading gate shown
 until the identity provider has answered once.
 */
module Routing {
  import opened Base

  datatype AppState = AppState(user: Option<User>, loading: bool, path: string)

  /** Before the identity provider answers: no user, loading. The outer
      router mounts the shell only at '/', so that is the path it starts
      from; every later path comes from `navigate` or from the back/forward
      listener. */
  function InitialApp(): AppState {
    AppState(None, true, "/")
  }

  /** The sign-in listener: the reported user is stored and loading ends. */
  function AuthChanged(s: AppState, user: Option<User>): (s': AppState)
    ensures s'.user == user && !s'.loading && s'.path == s.path
  {
    s.(user := user, loading := false)
  }

  /** `navigate(path)`; the back/forward listener sets the path the same way. */
  function Navigate(s: AppState, path: string): (s': AppState)
    ensures s'.path == path && s'.user == s.user && s'.loading == s.loading
  {
    s.(path := path)
  }

  datatype Page =
    | LoadingPage
    | LoginPage
    | SignUpPage
    | TemplatesPage(user: User)
    | DashboardPage(user: User)
    | HomePage(viewer: Option<User>)

  /** A page and the state the render leaves behind (a guarded page redirects
      by navigating to '/login' while rendering). */
  datatype Rendered = Rendered(page: Page, state: AppState)

  /** The loading gate, then `renderPage`. */
  function Render(s: AppState): (r: Rendered)
    ensures s.loading ==> r == Rendered(LoadingPage, s)
    ensures r.state.user == s.user && r.state.loading == s.loading
  {
    if s.loading then Rendered(LoadingPage, s)
    else if s.path == "/login" then Rendered(LoginPage, s)
    else if s.path == "/signup" then Rendered(SignUpPage, s)
    else if s.path == "/templates" then
      match s.user
      case Some(u) => Rendered(TemplatesPage(u), s)
      case None => Rendered(LoginPage, Navigate(s, "/login"))
    else if s.path == "/dashboard" then
      match s.user
      case Some(u) => Rendered(DashboardPage(u), s)
      case None => Rendered(LoginPage, Navigate(s, "/login"))
    else Rendered(HomePage(s.user), s)
  }

  /** The sign-in and sign-up pages are open to everyone. */
  lemma AuthPagesAreOpen(s: AppState)
    requires !s.loading
    ensures s.path == "/login" ==> Render(s) == Rendered(LoginPage, s)
    ensures s.path == "/signup" ==> Render(s) == Rendered(SignUpPage, s)
  {
  }

  /** The template and dashboard pages render only for a signed-in user; for
      anyone else the path becomes '/login' and the sign-in page is shown. */
  lemma GuardedPages(s: AppState)
    requires !s.loading
    ensures s.path == "/templates" ==>
      (Render(s).page.TemplatesPage? <==> s.user.Some?)
    ensures s.path == "/dashboard" ==>
      (Render(s).page.DashboardPage? <==> s.user.Some?)
    ensures (s.path == "/templates" || s.path == "/dashboard") && s.user.None? ==>
      Render(s) == Rendered(LoginPage, s.(path := "/login"))
  {
  }

  /** Every path the switch does not name shows the home composition. */
  lemma OtherPathsShowHome(s: AppState)
    requires !s.loading
    requires s.path !in {"/login", "/signup", "/templates", "/dashboard"}
    ensures Render(s) == Rendered(HomePage(s.user), s)
  {
  }

  /** The shell first shows the loading screen; once the identity provider
      has answered, it shows the home composition for whoever is signed in. */
  lemma StartUp(user: Option<User>)
    ensures Render(InitialApp()).page == LoadingPage
    ensures Render(AuthChanged(InitialApp(), user)).page == HomePage(user)
  {
  }

  /** Rendering settles after one step: rendering the state a render leaves
      behind shows the same page and changes nothing more. */
  lemma RenderSettles(s: AppState)
    ensures Render(Render(s).state) == Render(s)
  {
  }
}

=== FILE: sequences.dfy ===
/**
 `Array.prototype.filter` over an immutable sequence, and the order-keeping
 relation it establishes. Both the line-item list of the editor and the
 receipt list of the dashboard are filtered by id with it.
 */
module Sequences {

  /** `a` can be obtained from `b` by deleting elements: same elements, same
      relative order. */
  predicate IsSubsequence<T(==)>(a: seq<T>, b: seq<T>)
    decreases |b|
  {
    if a == [] then true
    else if b == [] then false
    else (a[0] == b[0] && IsSubsequence(a[1..], b[1..])) || IsSubsequence(a, b[1..])
  }

  /** `r` holds each value that satisfies `keep` exactly as often as `xs`
      does, and no other value. */
  ghost predicate CountsKept<T(!new)>(r: seq<T>, xs: seq<T>, keep: T -> bool) {
    forall x :: multiset(r)[x] == if keep(x) then multiset(xs)[x] else 0
  }

  /** `xs.filter(keep)`: the elements that satisfy `keep`, in their original
      order. `FilterCounts` adds that each is kept as often as it occurs. */
  function Filter<T(==)>(xs: seq<T>, keep: T -> bool): (r: seq<T>)
    ensures |r| <= |xs|
    ensures forall x :: x in r ==> x in xs && keep(x)
    ensures forall x :: x in xs && keep(x) ==> x in r
    ensures IsSubsequence(r, xs)
    ensures (forall x :: x in xs ==> keep(x)) ==> r == xs
    decreases |xs|
  {
    if xs == [] then []
    else
      var rest := Filter(xs[1..], keep);
      assert forall x :: x in xs[1..] ==> x in xs;
      assert xs == [xs[0]] + xs[1..];
      if keep(xs[0]) then
        assert ([xs[0]] + rest)[1..] == rest;
        [xs[0]] + rest
      else rest
  }

  /** Filtering keeps each value that passes as many times as it occurs,
      and drops every other value. */
  lemma {:induction false} FilterCounts<T(!new)>(xs: seq<T>, keep: T -> bool)
    ensures CountsKept(Filter(xs, keep), xs, keep)
    decreases |xs|
  {
    if xs != [] {
      FilterCounts(xs[1..], keep);
      assert xs == [xs[0]] + xs[1..];
    }
  }

  /** Filtering distributes over concatenation. */
  lemma {:induction false} FilterAppend<T>(a: seq<T>, b: seq<T>, keep: T -> bool)
    ensures Filter(a + b, keep) == Filter(a, keep) + Filter(b, keep)
    decreases |a|
  {
    if a == [] {
      assert a + b == b;
    } else {
      assert (a + b)[0] == a[0];
      assert (a + b)[1..] == a[1..] + b;
      FilterAppend(a[1..], b, keep);
    }
  }
}

=== FILE: signup.dfy ===
/**
 The sign-up page: the password-length check, the mapping from the identity
 provider's error codes to the three messages the user may see, the loading
 and error flags around each attempt, and the rotating quote.
 */
module SignUp {
  import opened Base

  const MinPasswordLength: nat := 6

  /** The number of quotes the left panel rotates through. */
  const QuoteCount: nat := 4

  const PasswordTooShort: string := "Password should be at least 6 characters."
  const EmailInUse: string := "This email address is already in use."
  const InvalidEmail: string := "Please enter a valid email address."
  const AccountFailed: string := "Failed to create an account. Please try again."
  const GoogleFailed: string := "Failed to sign up with Google. Please try again."

  /** What the identity provider did with the request. */
  datatype AuthOutcome = Created | Refused(code: string)

  datatype SignUpState = SignUpState(
    error: string,
    isLoading: bool,
    quoteIndex: nat,
    location: Option<string>)

  function InitialSignUp(): SignUpState {
    SignUpState("", false, 0, None)
  }

  /** The catch block of `handleSignUp`: two codes have their own message,
      every other failure gets the generic one. */
  function ErrorMessage(code: string): (m: string)
    ensures m in {EmailInUse, InvalidEmail, AccountFailed}
    ensures m == EmailInUse <==> code == "auth/email-already-in-use"
    ensures m == InvalidEmail <==> code == "auth/invalid-email"
  {
    if code == "auth/email-already-in-use" then EmailInUse
    else if code == "auth/invalid-email" then InvalidEmail
    else AccountFailed
  }

  /** One submission and whether it reached the identity provider. */
  datatype Submission = Submission(state: SignUpState, calledProvider: bool)

  /** `handleSignUp`, from submit to completion. The error is cleared first;
      a short password is refused locally; otherwise the provider's outcome
      decides between leaving for '/' and showing a mapped message. Loading is
      off at the end of every attempt. */
  function HandleSignUp(s: SignUpState, password: string, outcome: AuthOutcome): (r: Submission)
    ensures !r.state.isLoading
    ensures r.state.quoteIndex == s.quoteIndex
    ensures |password| < MinPasswordLength ==>
      !r.calledProvider && r.state.error == PasswordTooShort && r.state.location == s.location
    ensures |password| >= MinPasswordLength ==> r.calledProvider
    ensures |password| >= MinPasswordLength && outcome.Created? ==>
      r.state.error == "" && r.state.location == Some("/")
    ensures |password| >= MinPasswordLength && outcome.Refused? ==>
      r.state.error == ErrorMessage(outcome.code) && r.state.location == s.location
  {
    var started := s.(isLoading := true, error := "");
    if |password| < MinPasswordLength then
      Submission(started.(error := PasswordTooShort, isLoading := false), false)
    else
      match outcome
      case Created => Submission(started.(location := Some("/"), isLoading := false), true)
      case Refused(code) => Submission(started.(error := ErrorMessage(code), isLoading := false), true)
  }

  /** From the initial page, a short password shows the length message
      without reaching the provider, and an accepted sign-up leaves for '/'
      with no message. */
  lemma FirstSubmission(password: string, outcome: AuthOutcome)
    ensures |password| < MinPasswordLength ==>
      HandleSignUp(InitialSignUp(), password, outcome) == Submission(SignUpState(PasswordTooShort, false, 0, None), false)
    ensures |password| >= MinPasswordLength && outcome.Created? ==>
      HandleSignUp(InitialSignUp(), password, outcome) == Submission(SignUpState("", false, 0, Some("/")), true)
  {
  }

  /** The message left after a submission never depends on the one before,
      and is one of a closed set. */
  lemma SubmitClearsPreviousError(s: SignUpState, earlier: string, password: string, outcome: AuthOutcome)
    ensures HandleSignUp(s, password, outcome).state.error == HandleSignUp(s.(error := earlier), password, outcome).state.error
    ensures HandleSignUp(s, password, outcome).state.error in {"", PasswordTooShort, EmailInUse, InvalidEmail, AccountFailed}
  {
  }

  /** `handleGoogleSignUp`: the error is cleared; success leaves for '/',
      any failure shows one fixed message; loading ends either way. */
  function HandleGoogleSignUp(s: SignUpState, succeeded: bool): (s': SignUpState)
    ensures !s'.isLoading
    ensures succeeded ==> s'.error == "" && s'.location == Some("/")
    ensures !succeeded ==> s'.error == GoogleFailed && s'.location == s.location
  {
    var started := s.(isLoading := true, error := "");
    if succeeded then started.(location := Some("/"), isLoading := false)
    else started.(error := GoogleFailed, isLoading := false)
  }

  /** One tick of the quote timer: `(i + 1) % quotes.length`. */
  function NextQuote(i: nat): (j: nat)
    ensures j < QuoteCount
    ensures i + 1 < QuoteCount ==> j == i + 1
    ensures i + 1 == QuoteCount ==> j == 0
  {
    (i + 1) % QuoteCount
  }

  /** The index after `n` ticks from `i`. */
  function QuoteAfter(i: nat, n: nat): nat
    decreases n
  {
    if n == 0 then i else NextQuote(QuoteAfter(i, n - 1))
  }

  /** From the first quote, the timer shows quote `n mod 4` after `n` ticks:
      it stays in range and cycles through all four. */
  lemma {:induction false} QuoteCycle(n: nat)
    ensures QuoteAfter(0, n) == n % QuoteCount
    decreases n
  {
    if n > 0 {
      QuoteCycle(n - 1);
    }
  }
}

=== FILE: templates.dfy ===
/**
 The template page: the five built-in templates, the custom template being
 designed, the dotted-path setter the designer's controls call, saving a
 design as a new template, and the two small text conversions of the
 designer (border radius as "<n>px", colour keys as spaced labels).

 A template is a plain JavaScript object, modelled as a tree of string
 leaves and keyed objects. Values are immutable here, so the deep copy the
 setter takes before writing is the identity: the previous template can
 never be altered.
 */
module Templates {
  import opened Base
  import opened Numerals

  datatype Value = Text(s: string) | Object(fields: map<string, Value>)

  type Template = map<string, Value>

  /** Why the setter throws: reading a key of `undefined`, or creating a
      property on a string (strict-mode module code). */
  datatype PathError = MissingKey(key: string) | NotAnObject(key: string)

  // ---------------------------------------------------------------------
  // Built-in templates

  function Theme(
    background: string, formBackground: string, previewBackground: string,
    primaryText: string, secondaryText: string, accent: string, border: string, subtle: string,
    heading: string, body: string, receipt: string, borderRadius: string): Value
  {
    Object(map[
      "colors" := Object(map[
        "background" := Text(background),
        "formBackground" := Text(formBackground),
        "previewBackground" := Text(previewBackground),
        "primaryText" := Text(primaryText),
        "secondaryText" := Text(secondaryText),
        "accent" := Text(accent),
        "border" := Text(border),
        "subtle" := Text(subtle)]),
      "fonts" := Object(map[
        "heading" := Text(heading),
        "body" := Text(body),
        "receipt" := Text(receipt)]),
      "borderRadius" := Text(borderRadius)])
  }

  function MakeTemplate(id: string, name: string, description: string, theme: Value): Template {
    map["id" := Text(id), "name" := Text(name), "description" := Text(description), "theme" := theme]
  }

  function ClassicTheme(): Value {
    Theme("#e2e1de", "#f5f4f2", "#ffffff", "#1c1c1c", "#555", "#7c3aed", "#ccc", "#e9e8e5",
          "'Inter', sans-serif", "'Inter', sans-serif", "'Courier New', monospace", "24px")
  }

  function InitialTemplates(): (ts: seq<Template>)
    ensures |ts| == 5
  {
    [ MakeTemplate("classic", "Modern Classic", "Clean, professional, and timeless.", ClassicTheme()),
      MakeTemplate("midnight", "Midnight Express", "A sleek and modern dark theme.",
        Theme("#1a1d24", "#252932", "#1a1d24", "#f0f0f0", "#a0a0a0", "#3498db", "#444", "#333842",
              "'Roboto', sans-serif", "'Roboto', sans-serif", "'Fira Code', monospace", "16px")),
      MakeTemplate("vintage", "Vintage Paper", "Classic, warm, and reminiscent of old paper.",
        Theme("#fdf6e3", "#fbf1c7", "#fdf6e3", "#654321", "#8d6e63", "#d32f2f", "#d7ccc8", "#efebe9",
              "'Merriweather', serif", "'Lora', serif", "'Cutive Mono', monospace", "8px")),
      MakeTemplate("eco", "Eco Green", "Fresh, natural, and environmentally friendly.",
        Theme("#edf4f2", "#ffffff", "#f8fbf7", "#0d5c46", "#4a7c6d", "#27ae60", "#c8e6c9", "#e8f5e9",
              "'Poppins', sans-serif", "'Poppins', sans-serif", "'Source Code Pro', monospace", "20px")),
      MakeTemplate("corporate", "Corporate Blue", "Sharp, clean, and business-focused.",
        Theme("#f0f4f8", "#ffffff", "#f8f9fa", "#0a2540", "#525f7f", "#007bff", "#dee2e6", "#e9ecef",
              "'Lato', sans-serif", "'Lato', sans-serif", "'Roboto Mono', monospace", "12px")) ]
  }

  /** The design the customizer starts from: id 'custom', on a copy of the
      classic theme. */
  function InitialCustomTemplate(): (t: Template)
    ensures t.Keys == {"id", "name", "description", "theme"}
    ensures t["id"] == Text("custom") && t["theme"] == ClassicTheme()
  {
    MakeTemplate("custom", "My Custom Design", "A personalized receipt template.", InitialTemplates()[0]["theme"])
  }

  /** The `id` of a template, when it is text. */
  function IdOf(t: Template): Option<string> {
    if "id" in t && t["id"].Text? then Some(t["id"].s) else None
  }

  /** The built-in templates carry five pairwise distinct ids, and the
      custom design starts from exactly the classic theme. */
  lemma BuiltInTemplates()
    ensures |InitialTemplates()| == 5
    ensures forall i, j :: 0 <= i < j < 5 ==> IdOf(InitialTemplates()[i]) != IdOf(InitialTemplates()[j])
    ensures forall i :: 0 <= i < 5 ==> IdOf(InitialTemplates()[i]).Some?
    ensures InitialCustomTemplate()["theme"] == InitialTemplates()[0]["theme"] == ClassicTheme()
    ensures IdOf(InitialCustomTemplate()) == Some("custom")
  {
    var ts := InitialTemplates();
    assert IdOf(ts[0]) == Some("classic");
    assert IdOf(ts[1]) == Some("midnight");
    assert IdOf(ts[2]) == Some("vintage");
    assert IdOf(ts[3]) == Some("eco");
    assert IdOf(ts[4]) == Some("corporate");
  }

  // ---------------------------------------------------------------------
  // Dotted paths

  /** `path.split('.')`: always at least one key, none containing a dot. */
  function SplitPath(path: string): (keys: seq<string>)
    ensures |keys| >= 1
    ensures forall i :: 0 <= i < |keys| ==> '.' !in keys[i]
    decreases |path|
  {
    if path == [] then [""]
    else
      var rest := SplitPath(path[1..]);
      if path[0] == '.' then [""] + rest
      else [[path[0]] + rest[0]] + rest[1..]
  }

  /** `keys.join('.')` */
  function JoinPath(keys: seq<string>): string
    requires |keys| >= 1
    decreases |keys|
  {
    if |keys| == 1 then keys[0] else keys[0] + "." + JoinPath(keys[1..])
  }

  /** Splitting loses nothing: joining the keys gives back the path. */
  lemma {:induction false} SplitThenJoin(path: string)
    ensures JoinPath(SplitPath(path)) == path
    decreases |path|
  {
    if path != [] {
      var rest := SplitPath(path[1..]);
      SplitThenJoin(path[1..]);
      if path[0] == '.' {
        assert JoinPath([""] + rest) == "" + "." + JoinPath(rest);
      } else {
        var keys := [[path[0]] + rest[0]] + rest[1..];
        if |rest| == 1 {
          assert JoinPath(keys) == [path[0]] + rest[0];
        } else {
          assert JoinPath(rest) == rest[0] + "." + JoinPath(rest[1..]);
          assert keys[1..] == rest[1..];
          assert JoinPath(keys) == [path[0]] + rest[0] + "." + JoinPath(rest[1..]);
        }
      }
    }
  }

  /** A key without a dot splits to itself. */
  lemma {:induction false} SplitSingleKey(k: string)
    requires '.' !in k
    ensures SplitPath(k) == [k]
    decreases |k|
  {
    if k != [] {
      SplitSingleKey(k[1..]);
      assert k == [k[0]] + k[1..];
    }
  }

  /** A dot-free key followed by a dot splits off as the first key. */
  lemma {:induction false} SplitFirstKey(k: string, rest: string)
    requires '.' !in k
    ensures SplitPath(k + "." + rest) == [k] + SplitPath(rest)
    decreases |k|
  {
    if k == [] {
      assert k + "." + rest == "." + rest;
      assert ("." + rest)[1..] == rest;
    } else {
      var p := k + "." + rest;
      assert p[0] == k[0];
      assert p[1..] == k[1..] + "." + rest;
      SplitFirstKey(k[1..], rest);
      assert k == [k[0]] + k[1..];
    }
  }

  /** Joining dot-free keys and splitting again gives back the keys. */
  lemma {:induction false} JoinThenSplit(keys: seq<string>)
    requires |keys| >= 1
    requires forall i :: 0 <= i < |keys| ==> '.' !in keys[i]
    ensures SplitPath(JoinPath(keys)) == keys
    decreases |keys|
  {
    if |keys| == 1 {
      SplitSingleKey(keys[0]);
    } else {
      JoinThenSplit(keys[1..]);
      SplitFirstKey(keys[0], JoinPath(keys[1..]));
      assert keys == [keys[0]] + keys[1..];
    }
  }

  /** Reading a path; `None` where a key is missing or text is met early. */
  function GetIn(t: Template, keys: seq<string>): (r: Option<Value>)
    requires |keys| >= 1
    ensures r.Some? ==> keys[0] in t
    ensures |keys| == 1 ==> (r.Some? <==> keys[0] in t)
    ensures |keys| > 1 && keys[0] in t && t[keys[0]].Text? ==> r.None?
    ensures |keys| > 1 && keys[0] in t && t[keys[0]].Object? ==> r == GetIn(t[keys[0]].fields, keys[1..])
    decreases |keys|
  {
    if keys[0] !in t then None
    else if |keys| == 1 then Some(t[keys[0]])
    else match t[keys[0]]
      case Text(_) => None
      case Object(inner) => GetIn(inner, keys[1..])
  }

  /** The loop of `handleCustomTemplateChange` on the deep copy: walk down all
      keys but the last, then assign the last one. Every key on the way must
      name an object. At the top level, the first key is written and every
      other key keeps its value. */
  function SetIn(t: Template, keys: seq<string>, v: Value): (r: Result<Template, PathError>)
    requires |keys| >= 1
    ensures r.Success? ==> r.value.Keys == t.Keys + {keys[0]}
    ensures r.Success? ==> forall k :: k in t && k != keys[0] ==> r.value[k] == t[k]
    decreases |keys|
  {
    if |keys| == 1 then Success(t[keys[0] := v])
    else if keys[0] !in t then Failure(MissingKey(keys[0]))
    else match t[keys[0]]
      case Text(_) => Failure(NotAnObject(keys[0]))
      case Object(inner) =>
        match SetIn(inner, keys[1..], v)
        case Success(inner') => Success(t[keys[0] := Object(inner')])
        case Failure(e) => Failure(e)
  }

  /** The setter succeeds exactly when everything above the leaf exists and is an object. */
  lemma {:induction false} SetInSucceedsIff(t: Template, keys: seq<string>, v: Value)
    requires |keys| >= 1
    ensures SetIn(t, keys, v).Success? <==>
      |keys| == 1 || (GetIn(t, keys[..|keys| - 1]).Some? && GetIn(t, keys[..|keys| - 1]).value.Object?)
    decreases |keys|
  {
    if |keys| > 1 && keys[0] in t && t[keys[0]].Object? {
      var prefix := keys[..|keys| - 1];
      assert prefix[0] == keys[0];
      if |keys| > 2 {
        assert prefix[1..] == keys[1..][..|keys[1..]| - 1];
      }
      SetInSucceedsIff(t[keys[0]].fields, keys[1..], v);
    }
  }

  /** After a successful write the addressed leaf holds the new value. */
  lemma {:induction false} SetInWritesLeaf(t: Template, keys: seq<string>, v: Value)
    requires |keys| >= 1
    requires SetIn(t, keys, v).Success?
    ensures GetIn(SetIn(t, keys, v).value, keys) == Some(v)
    decreases |keys|
  {
    if |keys| > 1 {
      SetInWritesLeaf(t[keys[0]].fields, keys[1..], v);
    }
  }

  /** A write changes nothing outside its own path: every path that is
      neither a prefix nor an extension of the written one reads the same. */
  lemma {:induction false} SetInFrame(t: Template, keys: seq<string>, v: Value, other: seq<string>)
    requires |keys| >= 1 && |other| >= 1
    requires SetIn(t, keys, v).Success?
    requires !(keys <= other) && !(other <= keys)
    ensures GetIn(SetIn(t, keys, v).value, other) == GetIn(t, other)
    decreases |keys|
  {
    if other[0] == keys[0] {
      if |keys| == 1 {
        assert false;
      } else if |other| == 1 {
        assert false;
      } else {
        SetInFrame(t[keys[0]].fields, keys[1..], v, other[1..]);
      }
    }
  }

  /** `handleCustomTemplateChange(path, value)`. */
  function ChangeCustomTemplate(t: Template, path: string, v: Value): (r: Result<Template, PathError>)
    ensures r.Success? ==> GetIn(r.value, SplitPath(path)) == Some(v)
  {
    var keys := SplitPath(path);
    var r := SetIn(t, keys, v);
    if r.Success? then SetInWritesLeaf(t, keys, v); r else r
  }

  // ---------------------------------------------------------------------
  // The page

  /** The state of the template page. */
  datatype PageState = PageState(
    templates: seq<Template>,
    selected: Option<Template>,
    customizerOpen: bool,
    custom: Template)

  function InitialPage(): PageState {
    PageState(InitialTemplates(), None, false, InitialCustomTemplate())
  }

  /** The page opens on the picker with the built-in cards and the designer
      closed. */
  lemma InitialPageShowsPicker()
    ensures View(InitialPage()) == Picker(InitialTemplates(), false)
    ensures !InitialPage().customizerOpen && InitialPage().custom == InitialCustomTemplate()
  {
  }

  /** Saving a design from the opening page adds a sixth card whose id none
      of the first five carries. */
  lemma FirstSaveIsFresh(stamp: nat)
    ensures var s' := SaveCustomTemplate(InitialPage(), stamp);
      && |s'.templates| == 6
      && forall i :: 0 <= i < 5 ==> IdOf(s'.templates[i]) != IdOf(s'.templates[5])
  {
    SavedIdIsNotBuiltIn(stamp);
  }

  /** What the page shows: the editor themed by the selection, else the
      picker (with the designer over it while it is open). */
  datatype PageView = EditorThemed(theme: Option<Value>) | Picker(cards: seq<Template>, designerOpen: bool)

  function View(s: PageState): (v: PageView)
    ensures v.EditorThemed? <==> s.selected.Some?
  {
    match s.selected
    case Some(t) => EditorThemed(if "theme" in t then Some(t["theme"]) else None)
    case None => Picker(s.templates, s.customizerOpen)
  }

  /** The id a save gives the design: 'custom-' and the clock reading. */
  function SavedId(stamp: nat): string {
    "custom-" + Decimal(stamp)
  }

  /** `handleSaveCustomTemplate`, with the `Date.now()` reading supplied by
      the caller: the design, under a new id, is appended, selected, and the
      designer closes. */
  function SaveCustomTemplate(s: PageState, stamp: nat): (s': PageState)
    ensures |s'.templates| == |s.templates| + 1
    ensures s'.templates[..|s.templates|] == s.templates
    ensures IdOf(s'.templates[|s.templates|]) == Some(SavedId(stamp))
    ensures s'.templates[|s.templates|].Keys == s.custom.Keys + {"id"}
    ensures forall k :: k in s.custom && k != "id" ==> k in s'.templates[|s.templates|] && s'.templates[|s.templates|][k] == s.custom[k]
    ensures s'.selected == Some(s'.templates[|s.templates|])
    ensures !s'.customizerOpen
    ensures s'.custom == s.custom
  {
    var saved := s.custom["id" := Text(SavedId(stamp))];
    s.(templates := s.templates + [saved], selected := Some(saved), customizerOpen := false)
  }

  /** A saved design never takes the id of a built-in template. */
  lemma SavedIdIsNotBuiltIn(stamp: nat)
    ensures forall i :: 0 <= i < |InitialTemplates()| ==> IdOf(InitialTemplates()[i]) != Some(SavedId(stamp))
  {
    var id := SavedId(stamp);
    assert id[0] == 'c' && id[1] == 'u';
    BuiltInTemplates();
    var ts := InitialTemplates();
    forall i | 0 <= i < |ts| ensures IdOf(ts[i]) != Some(id) {
      if i == 0 { assert IdOf(ts[i]) == Some("classic"); assert "classic"[1] == 'l'; }
      if i == 1 { assert IdOf(ts[i]) == Some("midnight"); assert "midnight"[0] == 'm'; }
      if i == 2 { assert IdOf(ts[i]) == Some("vintage"); assert "vintage"[0] == 'v'; }
      if i == 3 { assert IdOf(ts[i]) == Some("eco"); assert "eco"[0] == 'e'; }
      if i == 4 { assert IdOf(ts[i]) == Some("corporate"); assert "corporate"[1] == 'o'; }
    }
  }

  /** Clicking a card selects it; "Change Template" clears the selection;
      the designer card opens the designer and Cancel / close shuts it. */
  function SelectTemplate(s: PageState, t: Template): (s': PageState)
    ensures View(s') == EditorThemed(if "theme" in t then Some(t["theme"]) else None)
  {
    s.(selected := Some(t))
  }

  function BackToPicker(s: PageState): (s': PageState)
    ensures View(s') == Picker(s.templates, s.customizerOpen)
  {
    s.(selected := None)
  }

  function SetCustomizerOpen(s: PageState, open: bool): (s': PageState)
    ensures s'.customizerOpen == open && s'.templates == s.templates && s'.custom == s.custom
  {
    s.(customizerOpen := open)
  }

  // ---------------------------------------------------------------------
  // Designer text conversions

  /** The value the designer's radius slider writes: `${n}px`. */
  function RadiusText(n: nat): string {
    Decimal(n) + "px"
  }

  /** The slider reads the stored radius back with `parseInt`, and gets
      the number it wrote. */
  lemma RadiusRoundTrip(n: nat)
    ensures ParseInt(RadiusText(n)) == Some(n)
  {
    PixelsRoundTrip(n);
  }

  /** The stored radius of a template, when the theme has one. */
  function RadiusOf(t: Template): Option<string> {
    if "theme" in t && t["theme"].Object? && "borderRadius" in t["theme"].fields
       && t["theme"].fields["borderRadius"].Text?
    then Some(t["theme"].fields["borderRadius"].s)
    else None
  }

  /** The built-in radii are 24, 16, 8, 20 and 12 pixels. */
  lemma BuiltInRadii()
    ensures RadiusOf(InitialTemplates()[0]) == Some(RadiusText(24))
    ensures RadiusOf(InitialTemplates()[1]) == Some(RadiusText(16))
    ensures RadiusOf(InitialTemplates()[2]) == Some(RadiusText(8))
    ensures RadiusOf(InitialTemplates()[3]) == Some(RadiusText(20))
    ensures RadiusOf(InitialTemplates()[4]) == Some(RadiusText(12))
  {
    var ts := InitialTemplates();
    assert ts[0]["theme"] == ClassicTheme();
    assert ClassicTheme().fields["borderRadius"] == Text("24px");
    assert Decimal(2) == "2" && Decimal(1) == "1" && Decimal(8) == "8";
    assert Decimal(24) == Decimal(2) + [DigitChar(4)] == "24";
    assert RadiusText(24) == "24px";
    assert RadiusOf(ts[0]) == Some("24px");
    assert ts[1]["theme"].fields["borderRadius"] == Text("16px");
    assert Decimal(16) == Decimal(1) + [DigitChar(6)] == "16";
    assert RadiusText(16) == "16px";
    assert RadiusOf(ts[1]) == Some("16px");
    assert ts[2]["theme"].fields["borderRadius"] == Text("8px");
    assert RadiusText(8) == "8px";
    assert RadiusOf(ts[2]) == Some("8px");
    assert ts[3]["theme"].fields["borderRadius"] == Text("20px");
    assert Decimal(20) == Decimal(2) + [DigitChar(0)] == "20";
    assert RadiusText(20) == "20px";
    assert RadiusOf(ts[3]) == Some("20px");
    assert ts[4]["theme"].fields["borderRadius"] == Text("12px");
    assert Decimal(12) == Decimal(1) + [DigitChar(2)] == "12";
    assert RadiusText(12) == "12px";
    assert RadiusOf(ts[4]) == Some("12px");
  }

  /** Every built-in radius reads back within the slider's 0..40 range. */
  lemma BuiltInRadiiInRange()
    ensures forall i :: 0 <= i < |InitialTemplates()| ==>
      RadiusOf(InitialTemplates()[i]).Some? &&
      var p := ParseInt(RadiusOf(InitialTemplates()[i]).value);
      p.Some? && 0 <= p.value <= 40
  {
    BuiltInRadii();
    var ts := InitialTemplates();
    forall i | 0 <= i < |ts|
      ensures RadiusOf(ts[i]).Some? && ParseInt(RadiusOf(ts[i]).value).Some?
      ensures 0 <= ParseInt(RadiusOf(ts[i]).value).value <= 40
    {
      var n := if i == 0 then 24 else if i == 1 then 16 else if i == 2 then 8 else if i == 3 then 20 else 12;
      assert RadiusOf(ts[i]) == Some(RadiusText(n));
      RadiusRoundTrip(n);
    }
  }

  predicate IsUpper(c: char) {
    'A' <= c <= 'Z'
  }

  function CountUpper(s: string): nat
    decreases |s|
  {
    if s == [] then 0 else (if IsUpper(s[0]) then 1 else 0) + CountUpper(s[1..])
  }

  /** `label.replace(/([A-Z])/g, ' $1')`: a space before every capital A-Z. */
  function SpaceWords(s: string): (r: string)
    ensures |r| == |s| + CountUpper(s)
    ensures |r| > 0 ==> !IsUpper(r[0])
    ensures forall i :: 0 <= i < |r| && IsUpper(r[i]) ==> i > 0 && r[i - 1] == ' '
    decreases |s|
  {
    if s == [] then []
    else
      var rest := SpaceWords(s[1..]);
      if IsUpper(s[0]) then [' ', s[0]] + rest else [s[0]] + rest
  }

  /** Deletes each space that stands right before a capital letter. */
  function DropSpacesBeforeCapitals(t: string): string
    decreases |t|
  {
    if t == [] then []
    else if |t| >= 2 && t[0] == ' ' && IsUpper(t[1]) then [t[1]] + DropSpacesBeforeCapitals(t[2..])
    else [t[0]] + DropSpacesBeforeCapitals(t[1..])
  }

  /** Deleting the inserted spaces gives back the key. */
  lemma {:induction false} SpaceWordsRoundTrip(s: string)
    ensures DropSpacesBeforeCapitals(SpaceWords(s)) == s
    decreases |s|
  {
    if s != [] {
      var t := SpaceWords(s);
      var rest := SpaceWords(s[1..]);
      SpaceWordsRoundTrip(s[1..]);
      if IsUpper(s[0]) {
        assert t[2..] == rest;
      } else {
        assert t[1..] == rest;
      }
    }
  }

}
